=== FILE: README.md ===
# Portfolio page script: a Dafny model

This project models the behaviour-bearing parts of the portfolio page's `script.js`:

- **darkenColor** (`accent_color.dfy`, module `AccentColor`). It reads an accent colour
  `#RRGGBB` as one integer. It shifts each 8-bit channel by a signed amount and clamps it
  to [0, 255]. It writes the result back as `#` followed by six lower-case hex digits.
  The page calls it with percent -20, which is an amount of -51 (`CALL_SITE_AMOUNT`).
- **typeEffect** (`typing.dfy`, module `Typing`). This is the typing animation over the
  five role words. One call is the pure function `Step` over the three variables
  `roleIndex`, `charIndex` and `isDeleting`. The class `Typewriter` holds those variables
  and the element's text, and its method `TypeEffect` updates them in place. It returns
  the delay it would hand to `setTimeout`.
- **The panel popup** (`panels.dfy`, module `Panels`). It covers the static `timelines`
  object, the `activePanel` variable, the panel click handler, `closePopup` and the
  popup card's own click handler. The class `Popup` holds the popup's displayed state.
  The text area's HTML is modelled as the `View` it renders.
- **The skills category filter** (`skills_filter.dfy`, module `SkillsFilter`). The
  buttons' "active" classes and the cards' display values are arrays of booleans that
  the click handler rewrites in place.
- **The skill-card hover lift** (`hover.dfy`, module `SkillHover`). On mouseenter the
  handler appends `" scale(1.05)"` to the card's inline transform. On mouseleave the
  script removes the first occurrence with `String.prototype.replace` (`LeftAsWritten`).
  The class `SkillCard` uses the corrected removal `Left` instead; see "## Findings".
  `Stored` models how the style object keeps an assigned transform: without spaces at
  either end.

`wrappers.dfy` declares the `Option` type that the filter and the hover model share.

## Model

| member | source | states |
|---|---|---|
| AccentColor.ParseHex | script.js:11 | parseInt(_, 16) of a string of k hex digits is below 16^k |
| AccentColor.ToHex | script.js:21 | toString(16) writes at least one digit, all lower-case |
| AccentColor.PadStart | script.js:21 | padStart(width, fill) gives max(width, length) characters: the fill, then the original string as a suffix |
| AccentColor.Clamp | script.js:17-19 | Math.max(0, Math.min(255, x)) lies in [0, 255], keeps values in range, and sends values below to 0 and above to 255 |
| AccentColor.Pack | script.js:21 | `R << 16 \| G << 8 \| B` of three bytes is below 2^24, and its three bytes are exactly R, G and B |
| AccentColor.Red | script.js:13 | `num >> 16` is the quotient by 2^16, and a byte for any value below 2^24 |
| AccentColor.Green | script.js:14 | `num >> 8 & 0xFF` is a byte |
| AccentColor.Blue | script.js:15 | `num & 0xFF` is a byte |
| AccentColor.Unpack | script.js:13-15 | the three bytes read by `>> 16`, `>> 8 & 0xFF` and `& 0xFF` are bytes, and packing them gives the value back |
| AccentColor.DarkenValue | script.js:11-21 | the packed result is below 2^24, and each of its bytes is the matching input byte plus amt, clamped |
| AccentColor.DarkenColor | script.js:10-22 | for any `#RRGGBB` input, the result is `#` followed by six lower-case hex digits |
| AccentColor.Channel | script.js:13-15 | a two-digit channel of a colour is a byte |
| AccentColor.ParseAppend | script.js:11 | reading x then y as digits is reading x times 16^len(y), plus y |
| AccentColor.ParseDigits | script.js:21 | a value written with exactly k digits reads back as the value mod 16^k |
| AccentColor.PaddedHex | script.js:21 | toString(16).padStart(k, "0") equals the k-digit rendering of any value below 16^k |
| AccentColor.DigitsOfParse | script.js:11-21 | printing a parsed digit string at its own width gives it back lower-cased |
| AccentColor.SplitChannels | script.js:11-15 | the red, green and blue bytes of a six-digit value are its first, second and third digit pairs |
| AccentColor.ChannelIsByte | script.js:11-15 | channel k of a colour is byte k of the integer parseInt makes of it |
| AccentColor.FormatParse | script.js:11-21 | the six-digit output reads back as exactly the integer that was formatted (no digit is lost or added) |
| AccentColor.DarkenPacked | script.js:10-22 | the result is a colour whose digits read back as the packed darkened integer |
| AccentColor.DarkenChannels | script.js:10-22 | each output channel is the input channel plus amt, clamped to [0, 255] |
| AccentColor.DarkenNeverLightens | script.js:12-19 | with amt <= 0 no channel grows, and a channel becomes 0 exactly when it was at most -amt |
| AccentColor.DarkenByZero | script.js:10-22 | with amt 0 the colour comes back as it was, lower-cased |
| AccentColor.DarkenAtCallSite | script.js:65 | at the page's amount -51, channels up to 51 become 0 and every other channel drops by exactly 51 |
| Typing.Substring | script.js:93-96 | substring(0, end) clamps end into [0, len] and returns a prefix of that length |
| Typing.Step | script.js:89-109 | one call keeps roleIndex a valid index into roles |
| Typing.RolesNonEmpty | script.js:78-84 | the page has five role words, none of them empty |
| Typing.InitialInv | script.js:87 | the start state (0, 0, typing) satisfies the reachable-state invariant |
| Typing.StepKeepsInv | script.js:89-109 | each call keeps the invariant, and the text it writes is the first charIndex letters of the current word |
| Typing.StepRules | script.js:92-108 | each call moves charIndex by one in the current direction. The delay is 1500 exactly when a word is complete, 70 exactly while deleting continues, and 100 exactly when the next step types. The direction flips only at the word's end or at 0. roleIndex advances modulo the number of words only when deletion reaches 0 |
| Typing.EmptyRoleOverruns | script.js:99 | with an empty word, the `===` test misses and typing runs past the word's end |
| Typing.Run | script.js:108 | any number of successive calls keeps roleIndex valid |
| Typing.RunAppend | script.js:108 | a+b calls are a calls followed by b calls |
| Typing.TypeOut | script.js:92-102 | from a reachable typing state, the remaining letters' worth of calls reach the word's end in deleting mode |
| Typing.DeleteOut | script.js:95-106 | from a reachable deleting state, charIndex calls reach position 0 of the next word in typing mode |
| Typing.RoleCycle | script.js:89-109 | a word is typed and deleted in exactly twice its length calls, ending at the start of the next word |
| Typing.LettersStep | script.js:78-84 | the letter count of the first k words adds word k-1 to the first k-1 |
| Typing.RunThrough | script.js:108 | calls chain: a calls to mid then b calls to end is a+b calls to end |
| Typing.NextWord | script.js:105 | (r + 1) % n is r + 1, or 0 after the last word |
| Typing.RunWords | script.js:89-109 | typing and deleting the first k words takes twice their letters in calls, and ends at the start of word k |
| Typing.FullRotation | script.js:89-109 | after twice as many calls as all words have letters, the animation is back at its start state |
| Typing.RolesLetters | script.js:78-84 | the page's words have 43 letters, so the animation repeats every 86 calls |
| Typing.RotationEvery86 | script.js:78-109 | after 86 calls the page's animation is back at the start of "Developer" with nothing typed |
| Typing.Typewriter.constructor | script.js:86-87 | the variables start at 0, 0 and typing, a reachable state |
| Typing.Typewriter.TypeEffect | script.js:89-109 | the new variables, the text and the delay are those of Step on the old variables, and the invariant is kept. The element shows the first charIndex letters of the current word |
| Panels.TimelineAsWritten | script.js:255-257 | as written, the lookup fails exactly for the inherited Object.prototype names, and any non-empty result is the list `timelines` holds under that title |
| Panels.TimelineFor | script.js:255 | the intended lookup has entries only for a title `timelines` lists, and then exactly its list |
| Panels.ViewFor | script.js:244-263 | the about view is chosen exactly for "Know Me", and it carries the panel's own data-content |
| Panels.ViewChoice | script.js:244-263 | "Know Me" and only that title gives the about view with the panel's own text. Any other title gives the entries `timelines` lists for it, in order, or none |
| Panels.TimelineSizes | script.js:217-231 | Experience has five entries and Education four, and "Know Me" is not a timeline |
| Panels.PrototypeTitleThrows | script.js:255-257 | as written, a title naming an inherited Object.prototype member makes the lookup fail |
| Panels.TimelineForAgrees | script.js:255 | the intended lookup gives [] for every unlisted title. It agrees with the code as written on every title that is not an inherited member |
| Panels.Panel.constructor | script.js:236-237 | a panel carries its data-title and data-content |
| Panels.Popup.constructor | script.js:180 | the popup starts hidden with no active panel |
| Panels.Popup.OpenPanel | script.js:233-267 | the clicked panel becomes active. The heading is its title and the popup is shown. The view is ViewFor(title, content). The image area is shown and the text centred exactly for "Know Me", and only then is the portrait loaded |
| Panels.Popup.Close | script.js:207-212 | hides the popup and clears the active panel, leaving the rest of the popup as it was |
| Panels.Popup.CardClick | script.js:215 | closes the popup exactly when the click's target is the card itself, and otherwise changes nothing |
| SkillsFilter.Visible | script.js:277 | "all" shows every card. Any other category shows a card exactly when its data-category equals it. A card without data-category is shown only for a button without one |
| SkillsFilter.Highlighted | script.js:272-273 | one "active" flag per button |
| SkillsFilter.Filtered | script.js:276-282 | one display value per card |
| SkillsFilter.ExactlyOneActive | script.js:272-273 | after a click exactly one button is active, and it is the clicked one |
| SkillsFilter.ShownCount | script.js:275-282 | "all" shows every card. Any other category shows as many cards as carry that category |
| SkillsFilter.ActivateOnly | script.js:272-273 | the buttons' flags become exactly "only the clicked one" |
| SkillsFilter.ShowMatching | script.js:276-282 | every card's display becomes `category === "all" \|\| card.dataset.category === category` |
| SkillsFilter.CategoryClick | script.js:270-284 | a click sets both the buttons' flags and the cards' display values as above |
| SkillHover.AtShift | script.js:332 | an occurrence in s[1..] at j is an occurrence in s at j+1, and back |
| SkillHover.IndexOf | script.js:332 | indexOf finds an occurrence, and no occurrence lies before it. If it finds none, there is none |
| SkillHover.FirstOccurrence | script.js:332 | an occurrence with none before it is the one indexOf finds |
| SkillHover.ReplaceFirst | script.js:332 | replace with a string pattern keeps the string when the pattern is absent. Otherwise only the first occurrence is replaced: the text before it is kept, the replacement stands where the occurrence began, the text after the occurrence follows it, and the length changes by the difference of the two lengths |
| SkillHover.TrimStart | script.js:329-332 | the stored value does not start with a space |
| SkillHover.TrimEnd | script.js:329-332 | the stored value does not end with a space |
| SkillHover.Stored | script.js:329-332 | what the style getter returns has no space at either end |
| SkillHover.StoredOfStored | script.js:329-332 | assigning a value that is already trimmed keeps it unchanged |
| SkillHover.Entered | script.js:329 | mouseenter leaves a trimmed transform |
| SkillHover.LeftAsWritten | script.js:332 | mouseleave as written leaves a trimmed transform |
| SkillHover.Left | script.js:332 | the corrected mouseleave leaves a trimmed transform |
| SkillHover.LiftFacts | script.js:329-332 | the appended text is a space followed by `scale(1.05)`, which has no space of its own |
| SkillHover.EnteredNonEmpty | script.js:329 | on a non-empty trimmed transform, mouseenter is plain concatenation |
| SkillHover.ScaleHasNoSpace | script.js:329 | no character of `scale(1.05)` is a space |
| SkillHover.ScaleInsidePrefix | script.js:332 | what follows t does not change matches lying inside t |
| SkillHover.ScaleOverSpace | script.js:329 | no `scale(1.05)` can straddle the space mouseenter adds |
| SkillHover.NoEarlyScale | script.js:329-332 | if t has no `scale(1.05)`, t + lift has none before the appended one |
| SkillHover.NoScaleBeforeEnd | script.js:329-332 | the same fact, for all positions up to the end of t |
| SkillHover.ScaleAtEnd | script.js:329 | the appended lift has `scale(1.05)` right after its space |
| SkillHover.AppendedScaleIsFirst | script.js:329-332 | the first `scale(1.05)` of the entered value is the appended one |
| SkillHover.LiftHoldsScale | script.js:332 | every `" scale(1.05)"` has a `scale(1.05)` one place on |
| SkillHover.NoEarlyLift | script.js:329-332 | t + lift has no `" scale(1.05)"` starting inside t |
| SkillHover.NoLiftBeforeEnd | script.js:329-332 | the same fact, for every position inside t |
| SkillHover.LiftAtEnd | script.js:329 | the appended lift sits at the end of t |
| SkillHover.AppendedLiftIsFirst | script.js:329-332 | the first `" scale(1.05)"` of the entered value is the appended one, which is what replace removes |
| SkillHover.HoverRoundTripAsWritten | script.js:327-334 | as written, leave undoes enter on every non-empty trimmed transform that contains no `scale(1.05)` |
| SkillHover.HoverStuckWhenEmpty | script.js:327-334 | as written, an empty transform becomes `scale(1.05)` on enter and stays so on leave |
| SkillHover.HoverRoundTrip | script.js:327-334 | with the corrected leave, leave undoes enter on every trimmed transform that contains no `scale(1.05)`, the empty one included |
| SkillHover.SkillCard.constructor | script.js:327-329 | a card starts with a trimmed inline transform |
| SkillHover.SkillCard.MouseEnter | script.js:328-330 | the transform becomes Entered of the old one |
| SkillHover.SkillCard.MouseLeave | script.js:331-333 | the transform becomes the corrected Left of the old one |

## Left out

- AccentColor.DarkenColor: requires an input of `#` and six hex digits (assumed of the colour buttons' data-color values, the stylesheet's `--accent` and the default `#007bff`; script.js does not check it). parseInt's behaviour on other strings (a prefix of digits, NaN) is not modelled.
- AccentColor.DarkenColor: takes the amount as an integer. `Math.round(2.55 * percent)` is floating point, and at the page's percent -20 it yields -51, the constant `CALL_SITE_AMOUNT`.
- AccentColor.Pack: the bitwise OR of `R << 16 | G << 8 | B` is written as a sum. The three bytes are at most 255 and occupy disjoint bits, so the two agree. JavaScript's 32-bit conversion never matters below 2^24.
- Typing.Typewriter.TypeEffect: the early return when `.typing-text` is missing is not modelled. `setTimeout` scheduling is replaced by returning the delay.
- Panels.Popup.OpenPanel: the null checks on the popup's elements are not modelled. A missing data-title or data-content attribute (null) is not modelled either: the model's titles are strings.
- Panels.Popup.OpenPanel: the HTML markup built for the text area is modelled as the `View` it renders. Entry text is put into the markup without escaping, and that is not modelled.
- Panels.Popup.Close: the call to `updatePanelVisibility` is not modelled. That function is the scroll-driven fade of the panels, which is floating-point layout.
- The skills scroll effect (script.js:286-299) is not modelled beyond its effect on the hover: it rewrites each card's transform from layout measurements (floating point).
- updateScrollbarColor, preference loading, the settings popup, the theme toggle and the menu toggles are not modelled. They only copy values into the DOM and `localStorage`.
- The contact form is not modelled: it makes a network request.
- The IntersectionObserver reveal of sections is not modelled: it is browser layout.
- SkillHover.Stored: only the trimming of spaces is modelled. Tabs, line feeds, carriage returns and form feeds, which CSS also trims, are not. Any other normalisation that CSS serialisation does to a transform value is left out too.
- Panels.Popup.OpenPanel: models the intended lookup `TimelineFor`, not the code as written. For a title naming an inherited Object.prototype member, script.js:257 throws after setting the active panel, the heading and the layout, and the popup is never shown; the method instead shows an empty timeline. The as-written behaviour is stated by `TimelineAsWritten` and `PrototypeTitleThrows` (see "## Findings").
- SkillHover.SkillCard.MouseLeave: models the corrected removal `Left`, not the code as written. On a transform that mouseenter turned from empty into `scale(1.05)`, script.js:332 leaves it unchanged; the method removes it. The as-written behaviour is stated by `LeftAsWritten` and `HoverStuckWhenEmpty` (see "## Findings").
- Panels.Popup.Close: the early return of `closePopup` when the popup card is missing (script.js:208) is not modelled. The class assumes the card exists.
- SkillsFilter.CategoryClick: requires the buttons' and the cards' arrays to be distinct. They are different element lists on the page.

## Findings

| source | as written | input that shows it | evidently intended | confidence | as-written member | corrected member |
|---|---|---|---|---|---|---|
| script.js:255-257 | `timelines[title] \|\| []` also finds the members every object inherits, so the value found is a function (or Object.prototype itself for `__proto__`), which has no `forEach`, and the call throws | a panel whose data-title is "constructor" (or "toString", ...) | an unlisted title shows an empty timeline | low: not executed, and no title that script.js names is one | Panels.PrototypeTitleThrows (on Panels.TimelineAsWritten) | Panels.TimelineForAgrees (on Panels.TimelineFor, which the popup uses) |
| script.js:329-332 | enter assigns `"" + " scale(1.05)"`, which the style object stores trimmed as `scale(1.05)`; leave then searches for `" scale(1.05)"`, does not find it, and the card stays enlarged until the next scroll event rewrites its transform (script.js:297) | hovering a skill card whose inline transform is still empty, before any scroll event | leaving undoes entering | medium: not executed | SkillHover.HoverStuckWhenEmpty (on SkillHover.LeftAsWritten) | SkillHover.HoverRoundTrip (on SkillHover.Left, which SkillCard.MouseLeave uses) |

=== FILE: accent_color.dfy ===
/**
 * The accent-darkening helper `darkenColor` of script.js: it reads `#RRGGBB` as one
 * integer, moves each 8-bit channel by a signed amount, clamps every channel to
 * [0, 255] and writes the result back as `#` and six lower-case hex digits.
 *
 * The amount is `Math.round(2.55 * percent)`; every caller passes percent -20, which
 * gives exactly -51, so the model takes the amount as an integer (see CALL_SITE_AMOUNT).
 */
module AccentColor {

  /** The amount both call sites pass: Math.round(2.55 * -20). */
  const CALL_SITE_AMOUNT: int := -51

  // ---------------------------------------------------------------- digits

  /** The characters parseInt(_, 16) reads as digits. */
  predicate IsHexDigit(c: char) {
    '0' <= c <= '9' || 'a' <= c <= 'f' || 'A' <= c <= 'F'
  }

  /** The digits Number.prototype.toString(16) writes. */
  predicate IsLowerHexDigit(c: char) {
    '0' <= c <= '9' || 'a' <= c <= 'f'
  }

  predicate IsHexString(s: string) {
    forall i :: 0 <= i < |s| ==> IsHexDigit(s[i])
  }

  predicate IsLowerHexString(s: string) {
    forall i :: 0 <= i < |s| ==> IsLowerHexDigit(s[i])
  }

  /** A colour as the page stores accents: `#` then six hex digits, either case. */
  predicate IsHexColor(s: string) {
    |s| == 7 && s[0] == '#' && IsHexString(s[1..])
  }

  /** A colour as darkenColor writes it: `#` then six lower-case hex digits. */
  predicate IsLowerHexColor(s: string) {
    |s| == 7 && s[0] == '#' && IsLowerHexString(s[1..])
  }

  function DigitValue(c: char): (v: nat)
    requires IsHexDigit(c)
    ensures v < 16
  {
    if '0' <= c <= '9' then c as int - '0' as int
    else if 'a' <= c <= 'f' then c as int - 'a' as int + 10
    else c as int - 'A' as int + 10
  }

  /** The digit toString(16) writes for a value below 16. */
  function HexChar(v: nat): (c: char)
    requires v < 16
    ensures IsLowerHexDigit(c) && DigitValue(c) == v
  {
    if v < 10 then ('0' as int + v) as char else ('a' as int + v - 10) as char
  }

  /** The same digit in lower case: what toString(16) gives back for it. */
  function Lower(c: char): (d: char)
    requires IsHexDigit(c)
    ensures IsLowerHexDigit(d) && DigitValue(d) == DigitValue(c)
    ensures IsLowerHexDigit(c) ==> d == c
  {
    if 'A' <= c <= 'F' then (c as int - 'A' as int + 'a' as int) as char else c
  }

  function LowerString(s: string): (r: string)
    requires IsHexString(s)
    ensures |r| == |s| && IsLowerHexString(r)
    ensures forall i :: 0 <= i < |s| ==> r[i] == Lower(s[i])
  {
    seq(|s|, i requires 0 <= i < |s| => Lower(s[i]))
  }

  function Pow16(k: nat): (p: nat)
    ensures p >= 1
  {
    if k == 0 then 1 else 16 * Pow16(k - 1)
  }

  // ---------------------------------------------------------------- parse

  /** parseInt(s, 16) for a string made only of hex digits: most significant digit first. */
  function ParseHex(s: string): (v: nat)
    requires IsHexString(s)
    ensures v < Pow16(|s|)
  {
    if s == [] then 0 else ParseHex(s[..|s| - 1]) * 16 + DigitValue(s[|s| - 1])
  }

  // ---------------------------------------------------------------- format

  /** Number.prototype.toString(16) on a non-negative integer: no leading zeros, "0" for zero. */
  function ToHex(v: nat): (s: string)
    ensures 1 <= |s| && IsLowerHexString(s)
    decreases v
  {
    if v < 16 then [HexChar(v)] else ToHex(v / 16) + [HexChar(v % 16)]
  }

  /** String.prototype.padStart(width, fill) with a one-character fill. */
  function PadStart(s: string, width: nat, fill: char): (r: string)
    ensures |r| == if |s| < width then width else |s|
    ensures r[|r| - |s|..] == s
    ensures forall i :: 0 <= i < |r| - |s| ==> r[i] == fill
  {
    if |s| >= width then s else seq(width - |s|, _ => fill) + s
  }

  /** The k lowest hex digits of v, most significant first: a fixed-width reference rendering. */
  function Digits(v: nat, k: nat): (s: string)
    ensures |s| == k && IsLowerHexString(s)
  {
    if k == 0 then [] else Digits(v / 16, k - 1) + [HexChar(v % 16)]
  }

  // ---------------------------------------------------------------- darken

  /** Math.max(0, Math.min(255, x)). */
  function Clamp(x: int): (c: nat)
    ensures c <= 255
    ensures 0 <= x <= 255 ==> c == x
    ensures x < 0 ==> c == 0
    ensures x > 255 ==> c == 255
  {
    if x < 0 then 0 else if x > 255 then 255 else x
  }

  /** The red, green and blue bytes of a packed value below 2^24: `num >> 16`, `num >> 8 & 0xFF`, `num & 0xFF`. */
  function Red(num: nat): (r: nat)
    ensures num < 0x100_0000 ==> r < 0x100
    ensures r * 0x1_0000 <= num < (r + 1) * 0x1_0000
  {
    num / 0x1_0000
  }

  function Green(num: nat): (g: nat)
    ensures g < 0x100
  {
    num / 0x100 % 0x100
  }

  function Blue(num: nat): (b: nat)
    ensures b < 0x100
  {
    num % 0x100
  }

  /** `R << 16 | G << 8 | B`: the three bytes occupy disjoint bits, so the OR is a sum. */
  function Pack(r: nat, g: nat, b: nat): (num: nat)
    requires r < 256 && g < 256 && b < 256
    ensures num < 0x100_0000
    ensures Red(num) == r && Green(num) == g && Blue(num) == b
  {
    r * 0x1_0000 + g * 0x100 + b
  }

  /** Packing the three bytes of a value below 2^24 gives the value back. */
  lemma Unpack(num: nat)
    requires num < 0x100_0000
    ensures Red(num) < 256 && Green(num) < 256 && Blue(num) < 256
    ensures Pack(Red(num), Green(num), Blue(num)) == num
  {
    var q := num / 0x100;
    assert num == 0x100 * q + num % 0x100;
    assert q == 0x100 * (q / 0x100) + q % 0x100;
    assert num == 0x1_0000 * (q / 0x100) + (q % 0x100 * 0x100 + num % 0x100);
    ModUnique(num, 0x1_0000, q / 0x100, q % 0x100 * 0x100 + num % 0x100);
  }

  /** The integer darkenColor packs before formatting. */
  function DarkenValue(num: nat, amt: int): (packed: nat)
    requires num < 0x100_0000
    ensures packed < 0x100_0000
    ensures Red(packed) == Clamp(Red(num) + amt)
    ensures Green(packed) == Clamp(Green(num) + amt)
    ensures Blue(packed) == Clamp(Blue(num) + amt)
  {
    Pack(Clamp(Red(num) + amt), Clamp(Green(num) + amt), Clamp(Blue(num) + amt))
  }

  /** darkenColor(hex, percent) with amt = Math.round(2.55 * percent). */
  function DarkenColor(hex: string, amt: int): (r: string)
    requires IsHexColor(hex)
    ensures IsLowerHexColor(r)
  {
    var num := ParseHex(hex[1..]);
    assert num < 0x100_0000 by { assert Pow16(6) == 0x100_0000; }
    var packed := DarkenValue(num, amt);
    PaddedHex(packed, 6);
    "#" + PadStart(ToHex(packed), 6, '0')
  }

  /** Byte k (0 red, 1 green, 2 blue) of a `#RRGGBB` colour, read as parseInt reads it. */
  function Channel(c: string, k: nat): (v: nat)
    requires IsHexColor(c) && k < 3
    ensures v < 256
  {
    ParseHex(c[1 + 2 * k..3 + 2 * k])
  }

  // ---------------------------------------------------------------- arithmetic helpers

  lemma MulAtLeast(m: int, d: int)
    requires m >= 1
    ensures d >= 1 ==> m * d >= m
    ensures d <= -1 ==> m * d <= -m
  {
  }

  lemma ModUnique(v: int, m: int, a: int, r: int)
    requires m >= 1 && 0 <= r < m && v == m * a + r
    ensures v % m == r && v / m == a
  {
    var d := a - v / m;
    assert m * d == v % m - r;
    MulAtLeast(m, d);
  }

  lemma ModTimes16(v: nat, p: nat)
    requires p >= 1
    ensures (v / 16 % p) * 16 + v % 16 == v % (16 * p)
  {
    var q := v / 16;
    var a := q / p;
    var b := q % p;
    assert q == p * a + b;
    assert v == (16 * p) * a + (16 * b + v % 16);
    ModUnique(v, 16 * p, a, 16 * b + v % 16);
  }

  // ---------------------------------------------------------------- parse/format lemmas

  lemma Regroup(px: int, q: int, py: int, d: int)
    ensures (px * q + py) * 16 + d == px * (16 * q) + (py * 16 + d)
  {
  }

  /** Reading a string of digits piecewise: the left part is worth Pow16(|y|) times more. */
  lemma {:induction false} ParseAppend(x: string, y: string)
    requires IsHexString(x) && IsHexString(y)
    ensures IsHexString(x + y)
    ensures ParseHex(x + y) == ParseHex(x) * Pow16(|y|) + ParseHex(y)
  {
    assert IsHexString(x + y) by {
      forall i | 0 <= i < |x + y| ensures IsHexDigit((x + y)[i]) {
        if i >= |x| { assert (x + y)[i] == y[i - |x|]; }
      }
    }
    if y != [] {
      var y' := y[..|y| - 1];
      var last := y[|y| - 1];
      assert IsHexString(y') by {
        forall i | 0 <= i < |y'| ensures IsHexDigit(y'[i]) { assert y'[i] == y[i]; }
      }
      ParseAppend(x, y');
      var px, py, q, d := ParseHex(x), ParseHex(y'), Pow16(|y'|), DigitValue(last);
      assert ParseHex(x + y) == ParseHex(x + y') * 16 + d by {
        assert (x + y)[..|x + y| - 1] == x + y';
        assert (x + y)[|x + y| - 1] == last;
      }
      assert ParseHex(y) == py * 16 + d;
      assert Pow16(|y|) == 16 * q;
      calc {
        ParseHex(x + y);
      ==
        (px * q + py) * 16 + d;
      == { Regroup(px, q, py, d); }
        px * (16 * q) + (py * 16 + d);
      ==
        px * Pow16(|y|) + ParseHex(y);
      }
    } else {
      assert x + y == x;
    }
  }

  /** The fixed-width rendering reads back as the value modulo 16^k. */
  lemma {:induction false} ParseDigits(v: nat, k: nat)
    ensures ParseHex(Digits(v, k)) == v % Pow16(k)
  {
    if k > 0 {
      var d := Digits(v / 16, k - 1);
      assert Digits(v, k)[..k - 1] == d;
      ParseDigits(v / 16, k - 1);
      ModTimes16(v, Pow16(k - 1));
    }
  }

  /** toString(16) followed by padStart(k, "0") is the fixed-width rendering, for values that fit. */
  lemma {:induction false} PaddedHex(v: nat, k: nat)
    requires 1 <= k && v < Pow16(k)
    ensures PadStart(ToHex(v), k, '0') == Digits(v, k)
    decreases v
  {
    var c := HexChar(v % 16);
    assert Digits(v, k) == Digits(v / 16, k - 1) + [c];
    if v < 16 {
      assert ToHex(v) == [] + [c];
      PadStartSnoc([], c, k);
      assert PadStart([], k - 1, '0') == Digits(0, k - 1) by {
        ZeroDigits(k - 1);
      }
    } else {
      assert v / 16 < Pow16(k - 1);
      assert k >= 2;
      var t := ToHex(v / 16);
      PaddedHex(v / 16, k - 1);
      assert ToHex(v) == t + [c];
      PadStartSnoc(t, c, k);
    }
  }

  /** Padding a string with one more character at its end pads it to one less. */
  lemma PadStartSnoc(t: string, c: char, width: nat)
    requires |t| < width
    ensures PadStart(t + [c], width, '0') == PadStart(t, width - 1, '0') + [c]
  {
    assert seq(width - |t + [c]|, _ => '0') == seq(width - 1 - |t|, _ => '0');
  }

  lemma {:induction false} ZeroDigits(k: nat)
    ensures Digits(0, k) == PadStart([], k, '0')
  {
    if k > 0 {
      ZeroDigits(k - 1);
      assert Digits(0, k) == PadStart([], k - 1, '0') + ['0'];
      PadStartSnoc([], '0', k);
    }
  }

  lemma LowerOfLower(c: char)
    requires IsLowerHexDigit(c)
    ensures HexChar(DigitValue(c)) == c
  {
  }

  /** Reading hex digits and writing them back at the same width only lower-cases them. */
  lemma {:induction false} DigitsOfParse(s: string)
    requires IsHexString(s)
    ensures Digits(ParseHex(s), |s|) == LowerString(s)
  {
    if s != [] {
      var s' := s[..|s| - 1];
      var c := s[|s| - 1];
      var v := ParseHex(s);
      assert v == ParseHex(s') * 16 + DigitValue(c);
      assert v / 16 == ParseHex(s') && v % 16 == DigitValue(c);
      DigitsOfParse(s');
      LowerOfLower(Lower(c));
      assert LowerString(s) == LowerString(s') + [Lower(c)];
    }
  }

  lemma HexSlice(s: string, i: nat, j: nat)
    requires IsHexString(s) && i <= j <= |s|
    ensures IsHexString(s[i..j])
  {
    assert forall k :: 0 <= k < j - i ==> s[i..j][k] == s[i + k];
  }

  /** A digit string read as its first i digits followed by the rest. */
  lemma ParseSplit(s: string, i: nat)
    requires IsHexString(s) && i <= |s|
    ensures IsHexString(s[..i]) && IsHexString(s[i..])
    ensures ParseHex(s) == ParseHex(s[..i]) * Pow16(|s| - i) + ParseHex(s[i..])
  {
    var x, y := s[..i], s[i..];
    HexSlice(s, 0, i);
    HexSlice(s, i, |s|);
    assert ParseHex(x + y) == ParseHex(x) * Pow16(|y|) + ParseHex(y) by {
      ParseAppend(x, y);
    }
    assert x + y == s;
  }

  lemma ParseFour(s: string)
    requires |s| == 4 && IsHexString(s)
    ensures IsHexString(s[..2]) && IsHexString(s[2..])
    ensures ParseHex(s) == ParseHex(s[..2]) * 0x100 + ParseHex(s[2..])
  {
    ParseSplit(s, 2);
    assert Pow16(2) == 0x100;
  }

  /** A six-digit value read pair by pair. */
  lemma ParseSix(s: string)
    requires |s| == 6 && IsHexString(s)
    ensures IsHexString(s[0..2]) && IsHexString(s[2..4]) && IsHexString(s[4..6])
    ensures ParseHex(s) == ParseHex(s[0..2]) * 0x1_0000 + ParseHex(s[2..4]) * 0x100 + ParseHex(s[4..6])
  {
    var rest := s[2..];
    assert ParseHex(s) == ParseHex(s[..2]) * 0x1_0000 + ParseHex(rest) by {
      ParseSplit(s, 2);
      assert Pow16(4) == 0x1_0000;
    }
    ParseFour(rest);
    assert rest[..2] == s[2..4] && rest[2..] == s[4..6] && s[..2] == s[0..2];
  }

  /** The three bytes of a six-digit value are its three digit pairs. */
  lemma SplitChannels(s: string)
    requires |s| == 6 && IsHexString(s)
    ensures Red(ParseHex(s)) == ParseHex(s[0..2])
    ensures Green(ParseHex(s)) == ParseHex(s[2..4])
    ensures Blue(ParseHex(s)) == ParseHex(s[4..6])
  {
    ParseSix(s);
    var pa, pb, pc := ParseHex(s[0..2]), ParseHex(s[2..4]), ParseHex(s[4..6]);
    assert pa < 256 && pb < 256 && pc < 256 by {
      assert Pow16(2) == 0x100;
    }
    var packed := Pack(pa, pb, pc);
    assert ParseHex(s) == packed;
  }

  // ---------------------------------------------------------------- properties of darkenColor

  /** Formatting is the inverse of parsing on six-digit values: the serialisation loses nothing. */
  lemma FormatParse(v: nat)
    requires v < 0x100_0000
    ensures IsHexString(PadStart(ToHex(v), 6, '0'))
    ensures ParseHex(PadStart(ToHex(v), 6, '0')) == v
  {
    PaddedHex(v, 6);
    ParseDigits(v, 6);
    assert Pow16(6) == 0x100_0000;
    assert v % 0x100_0000 == v by { ModUnique(v, 0x100_0000, 0, v); }
  }

  /** Byte k of the packed value (0 red, 1 green, 2 blue). */
  function Byte(num: nat, k: nat): nat
    requires k < 3
  {
    if k == 0 then Red(num) else if k == 1 then Green(num) else Blue(num)
  }

  /** Channel k of a colour is byte k of the integer parseInt makes of its digits. */
  lemma ChannelIsByte(c: string, k: nat)
    requires IsHexColor(c) && k < 3
    ensures Channel(c, k) == Byte(ParseHex(c[1..]), k)
  {
    SplitChannels(c[1..]);
    assert c[1..][2 * k..2 * k + 2] == c[1 + 2 * k..3 + 2 * k];
  }

  /** The digits darkenColor writes read back as the integer it packed. */
  lemma DarkenPacked(hex: string, amt: int)
    requires IsHexColor(hex)
    ensures ParseHex(hex[1..]) < 0x100_0000
    ensures IsHexColor(DarkenColor(hex, amt))
    ensures ParseHex(DarkenColor(hex, amt)[1..]) == DarkenValue(ParseHex(hex[1..]), amt)
  {
    assert Pow16(6) == 0x100_0000;
    var packed := DarkenValue(ParseHex(hex[1..]), amt);
    assert DarkenColor(hex, amt)[1..] == PadStart(ToHex(packed), 6, '0');
    FormatParse(packed);
  }

  /** Every output channel is the input channel moved by amt and clamped to [0, 255]. */
  lemma DarkenChannels(hex: string, amt: int, k: nat)
    requires IsHexColor(hex) && k < 3
    ensures IsHexColor(DarkenColor(hex, amt))
    ensures Channel(DarkenColor(hex, amt), k) == Clamp(Channel(hex, k) + amt)
  {
    DarkenPacked(hex, amt);
    ChannelIsByte(DarkenColor(hex, amt), k);
    ChannelIsByte(hex, k);
  }

  /** A non-positive amount never lightens a channel, and it turns a channel to 0 exactly when the channel is at most -amt. */
  lemma DarkenNeverLightens(hex: string, amt: int, k: nat)
    requires IsHexColor(hex) && k < 3 && amt <= 0
    ensures IsHexColor(DarkenColor(hex, amt))
    ensures Channel(DarkenColor(hex, amt), k) <= Channel(hex, k)
    ensures Channel(DarkenColor(hex, amt), k) == 0 <==> Channel(hex, k) <= -amt
  {
    DarkenChannels(hex, amt, k);
  }

  /** With amt = 0 the colour comes back unchanged apart from lower-casing. */
  lemma DarkenByZero(hex: string)
    requires IsHexColor(hex)
    ensures DarkenColor(hex, 0) == "#" + LowerString(hex[1..])
  {
    var digits := hex[1..];
    var num := ParseHex(digits);
    assert num < 0x100_0000 by {
      assert Pow16(6) == 0x100_0000;
    }
    assert DarkenValue(num, 0) == num by {
      Unpack(num);
    }
    assert PadStart(ToHex(num), 6, '0') == LowerString(digits) by {
      PaddedHex(num, 6);
      DigitsOfParse(digits);
    }
  }

  /** At the call sites (amt = -51) a channel up to 51 becomes 0 and every other channel drops by exactly 51. */
  lemma DarkenAtCallSite(hex: string, k: nat)
    requires IsHexColor(hex) && k < 3
    ensures IsHexColor(DarkenColor(hex, CALL_SITE_AMOUNT))
    ensures Channel(DarkenColor(hex, CALL_SITE_AMOUNT), k)
            == if Channel(hex, k) <= 51 then 0 else Channel(hex, k) - 51
  {
    DarkenChannels(hex, CALL_SITE_AMOUNT, k);
  }
}

=== FILE: hover.dfy ===
/**
 * The hover lift of the skill cards in script.js: on mouseenter a card's inline
 * transform gets " scale(1.05)" appended, on mouseleave the first occurrence of
 * " scale(1.05)" is replaced by "". Both handlers assign `card.style.transform`, and the
 * style object keeps the assigned value as CSS parses it, so the value read back has no
 * spaces around it; Stored models that.
 */
module SkillHover {
  import opened Wrappers

  /** What mouseenter appends and mouseleave looks for. */
  const LIFT: string := " scale(1.05)"

  /** The transform function of LIFT without the separating space. */
  const SCALE: string := "scale(1.05)"

  /** p occurs in s at index i. */
  predicate At(s: string, p: string, i: nat) {
    i + |p| <= |s| && s[i..i + |p|] == p
  }

  lemma AtShift(s: string, p: string)
    requires |s| >= 1
    ensures forall j: nat :: At(s[1..], p, j) <==> At(s, p, j + 1)
    ensures forall j: nat :: 1 <= j ==> (At(s, p, j) <==> At(s[1..], p, j - 1))
  {
    forall j: nat
      ensures At(s[1..], p, j) <==> At(s, p, j + 1)
    {
      if j + 1 + |p| <= |s| {
        assert s[1..][j..j + |p|] == s[j + 1..j + 1 + |p|];
      }
    }
  }

  /** s.indexOf(p): the first index where p occurs, if any. */
  function IndexOf(s: string, p: string): (r: Option<nat>)
    ensures r.Some? ==> At(s, p, r.value)
    ensures forall j: nat :: j < (if r.Some? then r.value else |s| + 1) ==> !At(s, p, j)
    decreases |s|
  {
    if |s| < |p| then None
    else if s[..|p|] == p then Some(0)
    else
      AtShift(s, p);
      match IndexOf(s[1..], p)
      case None => None
      case Some(k) => Some(k + 1)
  }

  /** The first occurrence is the one IndexOf finds. */
  lemma FirstOccurrence(s: string, p: string, i: nat)
    requires At(s, p, i)
    requires forall j: nat :: j < i ==> !At(s, p, j)
    ensures IndexOf(s, p) == Some(i)
  {
  }

  /** s.replace(p, r) with a string pattern: only the first occurrence is replaced. */
  function ReplaceFirst(s: string, p: string, r: string): (res: string)
    ensures IndexOf(s, p).None? ==> res == s
    ensures IndexOf(s, p).Some? ==> |res| == |s| - |p| + |r|
    ensures IndexOf(s, p).Some? ==> res[..IndexOf(s, p).value] == s[..IndexOf(s, p).value]
    ensures IndexOf(s, p).Some? ==> var i := IndexOf(s, p).value;
      res[i..i + |r|] == r && res[i + |r|..] == s[i + |p|..]
  {
    match IndexOf(s, p)
    case None => s
    case Some(i) => s[..i] + r + s[i + |p|..]
  }

  // ---------------------------------------------------------------- the style property

  function TrimStart(s: string): (r: string)
    ensures r == [] || r[0] != ' '
  {
    if s != [] && s[0] == ' ' then TrimStart(s[1..]) else s
  }

  function TrimEnd(s: string): (r: string)
    ensures r == [] || r[|r| - 1] != ' '
    ensures s != [] && s[0] != ' ' ==> r == [] || r[0] != ' '
  {
    if s != [] && s[|s| - 1] == ' ' then TrimEnd(s[..|s| - 1]) else s
  }

  /** The value `card.style.transform` reads back after it is assigned v. */
  function Stored(v: string): (t: string)
    ensures IsStored(t)
  {
    TrimEnd(TrimStart(v))
  }

  /** A value the style getter can return: no space at either end. */
  predicate IsStored(t: string) {
    t == [] || (t[0] != ' ' && t[|t| - 1] != ' ')
  }

  lemma StoredOfStored(t: string)
    requires IsStored(t)
    ensures Stored(t) == t
  {
  }

  // ---------------------------------------------------------------- the handlers

  /** mouseenter: `card.style.transform += " scale(1.05)"`. */
  function Entered(t: string): (r: string)
    ensures IsStored(r)
  {
    Stored(t + LIFT)
  }

  /** mouseleave as written: `transform.replace(" scale(1.05)", "")`. */
  function LeftAsWritten(t: string): (r: string)
    ensures IsStored(r)
  {
    Stored(ReplaceFirst(t, LIFT, ""))
  }

  /**
   * mouseleave as intended: remove the first "scale(1.05)" and the space before it if
   * there is one, i.e. `transform.replace(/ ?scale\(1\.05\)/, "")`.
   */
  function Left(t: string): (r: string)
    ensures IsStored(r)
  {
    match IndexOf(t, SCALE)
    case None => Stored(t)
    case Some(i) =>
      if i > 0 && t[i - 1] == ' ' then Stored(t[..i - 1] + t[i + |SCALE|..])
      else Stored(t[..i] + t[i + |SCALE|..])
  }

  // ---------------------------------------------------------------- round trips

  lemma LiftFacts()
    ensures LIFT == [' '] + SCALE && |SCALE| == 11
    ensures forall o :: 0 <= o < |SCALE| ==> SCALE[o] != ' '
    ensures SCALE[0] == 's'
  {
  }

  /** Appending LIFT to a non-empty stored value keeps it as it is. */
  lemma EnteredNonEmpty(t: string)
    requires IsStored(t) && t != []
    ensures Entered(t) == t + LIFT
  {
    LiftFacts();
    var v := t + LIFT;
    assert TrimStart(v) == v;
    assert TrimEnd(v) == v;
  }

  lemma ScaleHasNoSpace(o: nat)
    requires o < |SCALE|
    ensures SCALE[o] != ' '
  {
  }

  /** A SCALE lying wholly inside t is unaffected by what follows t. */
  lemma ScaleInsidePrefix(t: string, j: nat)
    requires j + |SCALE| <= |t| && !At(t, SCALE, j)
    ensures !At(t + LIFT, SCALE, j)
  {
    assert (t + LIFT)[j..j + |SCALE|] == t[j..j + |SCALE|];
  }

  /** A SCALE starting in t and running past its end would cover the space of LIFT. */
  lemma ScaleOverSpace(t: string, j: nat)
    requires j <= |t| < j + |SCALE|
    ensures !At(t + LIFT, SCALE, j)
  {
    var s := t + LIFT;
    if j + |SCALE| <= |s| {
      var o := |t| - j;
      assert s[|t|] == ' ';
      assert s[j..j + |SCALE|][o] == ' ';
      ScaleHasNoSpace(o);
    }
  }

  /** SCALE, which has no space, cannot start in t and run into the space of the appended LIFT. */
  lemma NoEarlyScale(t: string, j: nat)
    requires IndexOf(t, SCALE).None? && j < |t| + 1
    ensures !At(t + LIFT, SCALE, j)
  {
    if j + |SCALE| <= |t| {
      assert !At(t, SCALE, j);
      ScaleInsidePrefix(t, j);
    } else {
      ScaleOverSpace(t, j);
    }
  }

  lemma NoScaleBeforeEnd(t: string)
    requires IndexOf(t, SCALE).None?
    ensures forall j: nat :: j < |t| + 1 ==> !At(t + LIFT, SCALE, j)
  {
    forall j: nat | j < |t| + 1
      ensures !At(t + LIFT, SCALE, j)
    {
      NoEarlyScale(t, j);
    }
  }

  lemma ScaleAtEnd(t: string)
    ensures At(t + LIFT, SCALE, |t| + 1)
  {
    LiftFacts();
    assert (t + LIFT)[|t| + 1..|t| + 1 + |SCALE|] == SCALE;
  }

  /** In t + LIFT, with no SCALE in t, the first SCALE is the appended one. */
  lemma AppendedScaleIsFirst(t: string)
    requires IndexOf(t, SCALE).None?
    ensures IndexOf(t + LIFT, SCALE) == Some(|t| + 1)
  {
    NoScaleBeforeEnd(t);
    ScaleAtEnd(t);
    FirstOccurrence(t + LIFT, SCALE, |t| + 1);
  }

  /** Every LIFT has a SCALE one place further on. */
  lemma LiftHoldsScale(s: string, j: nat)
    ensures At(s, LIFT, j) ==> At(s, SCALE, j + 1)
  {
    if At(s, LIFT, j) {
      assert LIFT[1..] == SCALE;
      assert s[j + 1..j + 1 + |SCALE|] == s[j..j + |LIFT|][1..];
    }
  }

  lemma NoEarlyLift(t: string, j: nat)
    requires IndexOf(t, SCALE).None? && j < |t|
    ensures !At(t + LIFT, LIFT, j)
  {
    NoEarlyScale(t, j + 1);
    LiftHoldsScale(t + LIFT, j);
  }

  lemma NoLiftBeforeEnd(t: string)
    requires IndexOf(t, SCALE).None?
    ensures forall j: nat :: j < |t| ==> !At(t + LIFT, LIFT, j)
  {
    forall j: nat | j < |t|
      ensures !At(t + LIFT, LIFT, j)
    {
      NoEarlyLift(t, j);
    }
  }

  lemma LiftAtEnd(t: string)
    ensures At(t + LIFT, LIFT, |t|)
  {
    assert (t + LIFT)[|t|..|t| + |LIFT|] == LIFT;
  }

  /** In t + LIFT, with no SCALE in t, the first LIFT is the appended one. */
  lemma AppendedLiftIsFirst(t: string)
    requires IndexOf(t, SCALE).None?
    ensures IndexOf(t + LIFT, LIFT) == Some(|t|)
  {
    NoLiftBeforeEnd(t);
    LiftAtEnd(t);
    FirstOccurrence(t + LIFT, LIFT, |t|);
  }

  /** As written, leaving undoes entering for every non-empty stored transform that contains no `scale(1.05)`. */
  lemma HoverRoundTripAsWritten(t: string)
    requires IsStored(t) && t != [] && IndexOf(t, SCALE).None?
    ensures LeftAsWritten(Entered(t)) == t
  {
    EnteredNonEmpty(t);
    assert ReplaceFirst(t + LIFT, LIFT, "") == t by {
      AppendedLiftIsFirst(t);
      assert (t + LIFT)[..|t|] == t;
      assert (t + LIFT)[|t| + |LIFT|..] == [];
    }
    StoredOfStored(t);
  }

  /** As written, a card whose inline transform is empty stays scaled after the pointer leaves. */
  lemma HoverStuckWhenEmpty()
    ensures Entered("") == SCALE
    ensures LeftAsWritten(Entered("")) == SCALE
  {
    LiftFacts();
    assert "" + LIFT == LIFT;
    assert TrimStart(LIFT) == SCALE by {
      assert LIFT[1..] == SCALE;
      assert TrimStart(SCALE) == SCALE;
    }
    assert TrimEnd(SCALE) == SCALE;
    assert IndexOf(SCALE, LIFT) == None;
    StoredOfStored(SCALE);
  }

  /** With the intended removal, leaving undoes entering for every stored transform that contains no `scale(1.05)`, the empty one included. */
  lemma HoverRoundTrip(t: string)
    requires IsStored(t) && IndexOf(t, SCALE).None?
    ensures Left(Entered(t)) == t
  {
    LiftFacts();
    if t == [] {
      HoverStuckWhenEmpty();
      assert IndexOf(SCALE, SCALE) == Some(0);
      assert SCALE[|SCALE|..] == [];
      StoredOfStored([]);
    } else {
      EnteredNonEmpty(t);
      AppendedScaleIsFirst(t);
      var s := t + LIFT;
      assert s[|t|] == ' ';
      assert s[..|t|] + s[|t| + 1 + |SCALE|..] == t;
      StoredOfStored(t);
    }
  }

  /** A skill card's inline style transform, which the two handlers update in place. */
  class SkillCard {
    var transform: string

    constructor (transform: string)
      requires IsStored(transform)
      ensures this.transform == transform
    {
      this.transform := transform;
    }

    /** mouseenter: the transform gets LIFT appended. */
    method MouseEnter()
      modifies this
      ensures transform == Entered(old(transform))
    {
      transform := Stored(transform + LIFT);
    }

    /** mouseleave with the corrected removal Left; the code as written is LeftAsWritten. */
    method MouseLeave()
      modifies this
      ensures transform == Left(old(transform))
    {
      transform := Left(transform);
    }
  }
}

=== FILE: panels.dfy ===
/**
 * The panel popup of script.js. Clicking a panel records it as the active panel, puts
 * its title in the popup heading and fills the popup with one of two views: the "about"
 * view (portrait and the panel's own text) for the panel titled "Know Me", and for every
 * other title the timeline that the static `timelines` object lists under that title.
 * Closing the popup hides it and forgets the active panel.
 */
module Panels {

  /** One milestone of a timeline. */
  datatype Entry = Entry(title: string, date: string, content: string)

  /** What the popup's text area shows. */
  datatype View = AboutView(content: string) | TimelineView(items: seq<Entry>)

  /** The reserved title of the panel that opens the about view. */
  const ABOUT_TITLE: string := "Know Me"

  /** The portrait the about view loads. */
  const PORTRAIT: string := "ima.png"

  /** The static `timelines` object: display order is list order. */
  const TIMELINES: map<string, seq<Entry>> := map[
    "Experience" := [
      Entry("Voice Assistant", "2022", "Created a Voice Assistant on Python"),
      Entry("Full Stack Developement", "2023", "HTML5, CSS/Tailwind CSS, Javascript, MERNStack"),
      Entry("My own Programming language: Can", "2025",
            "Created my Own non industrial programming language, interpreter designed over python"),
      Entry("Main Stream Programming", "Till Date", "Python, Java, Javascript, C, C++, Php"),
      Entry("Started my own Coding club: \"Logiclly\"", "Sept 2025",
            "Launched my own coding club in my university ISC BHU,")
    ],
    "Education" := [
      Entry("Highschool completed", "2023", "Sunbeam BGN Varanasi"),
      Entry("Interschool completed", "2025", "Sunbeam BGN Varanasi"),
      Entry("BSc Computer science", "2025-2029", "Banaras Hindu University, Varanasi"),
      Entry("Self Taught Programmer", "2018-onwards", "Started my Programming career")
    ]
  ]

  /**
   * The names every object literal inherits from Object.prototype, so that
   * `timelines[name]` is defined although `timelines` does not list it.
   */
  const OBJECT_PROTOTYPE_KEYS: set<string> := {
    "constructor", "hasOwnProperty", "isPrototypeOf", "propertyIsEnumerable",
    "toLocaleString", "toString", "valueOf", "__proto__",
    "__defineGetter__", "__defineSetter__", "__lookupGetter__", "__lookupSetter__"
  }

  /** What `(timelines[title] || []).forEach(...)` does as written. */
  datatype Lookup = Entries(items: seq<Entry>) | TypeError

  /**
   * The lookup as written: a title listed in `timelines` gives its entries, an inherited
   * member gives a function (or Object.prototype itself), which is truthy and has no
   * forEach, so the handler throws; any other title falls back to the empty list.
   */
  function TimelineAsWritten(title: string): (r: Lookup)
    ensures r.TypeError? <==> title in OBJECT_PROTOTYPE_KEYS
    ensures r.Entries? && r.items != [] ==> title in TIMELINES && r.items == TIMELINES[title]
  {
    assert TIMELINES.Keys == {"Experience", "Education"};
    if title in TIMELINES then Entries(TIMELINES[title])
    else if title in OBJECT_PROTOTYPE_KEYS then TypeError
    else Entries([])
  }

  /** The lookup the fallback `|| []` intends: only titles `timelines` lists have entries. */
  function TimelineFor(title: string): (entries: seq<Entry>)
    ensures entries != [] ==> title in TIMELINES && entries == TIMELINES[title]
  {
    if title in TIMELINES then TIMELINES[title] else []
  }

  /** The view a click on a panel with this title and data-content selects. */
  function ViewFor(title: string, content: string): (v: View)
    ensures v.AboutView? <==> title == ABOUT_TITLE
    ensures v.AboutView? ==> v.content == content
  {
    if title == ABOUT_TITLE then AboutView(content) else TimelineView(TimelineFor(title))
  }

  /**
   * "Know Me" and only "Know Me" gives the about view with the panel's text; every other
   * title gives exactly the entries `timelines` lists for it, in order, or none.
   */
  lemma ViewChoice(title: string, content: string)
    ensures ViewFor(title, content).AboutView? <==> title == ABOUT_TITLE
    ensures ViewFor(title, content).AboutView? ==> ViewFor(title, content).content == content
    ensures title != ABOUT_TITLE && title in TIMELINES ==> ViewFor(title, content) == TimelineView(TIMELINES[title])
    ensures title != ABOUT_TITLE && title !in TIMELINES ==> ViewFor(title, content) == TimelineView([])
  {
  }

  /** The two timelines hold five and four entries, and the about title names no timeline. */
  lemma TimelineSizes()
    ensures |TimelineFor("Experience")| == 5
    ensures |TimelineFor("Education")| == 4
    ensures ABOUT_TITLE !in TIMELINES
  {
  }

  /** As written, a panel titled after an inherited member ("constructor", "toString", ...) throws instead of showing an empty timeline. */
  lemma PrototypeTitleThrows(title: string)
    requires title in OBJECT_PROTOTYPE_KEYS
    ensures TimelineAsWritten(title) == TypeError
  {
    assert TIMELINES.Keys == {"Experience", "Education"};
  }

  /** The intended lookup never fails, and it agrees with the code as written on every title that is not an inherited member. */
  lemma TimelineForAgrees(title: string)
    ensures title !in TIMELINES ==> TimelineFor(title) == []
    ensures title !in OBJECT_PROTOTYPE_KEYS ==> TimelineAsWritten(title) == Entries(TimelineFor(title))
  {
  }

  /** A `.panel` element: its data-title and data-content attributes. */
  class Panel {
    const title: string
    const content: string

    constructor (title: string, content: string)
      ensures this.title == title && this.content == content
    {
      this.title := title;
      this.content := content;
    }
  }

  /** The popup card, the elements inside it, and the script's `activePanel` variable. */
  class Popup {
    /** Whether #popup-card has the class "show". */
    var shown: bool
    var activePanel: Panel?
    /** The textContent of #popup-title. */
    var heading: string
    /** Whether #popup-image-area is displayed (flex) rather than hidden (none). */
    var imageShown: bool
    /** The src of #popup-image. */
    var imageSrc: string
    /** Whether #popup-text-area is centred rather than left-aligned. */
    var centered: bool
    /** What #popup-text-area holds. */
    var view: View

    /** The page before any click: the popup hidden and no panel active. */
    constructor ()
      ensures !shown && activePanel == null
    {
      shown := false;
      activePanel := null;
      heading := "";
      imageShown := false;
      imageSrc := "";
      centered := false;
      view := TimelineView([]);
    }

    /** The click handler of a panel, with the intended lookup TimelineFor (the code as written is TimelineAsWritten). */
    method OpenPanel(panel: Panel)
      modifies this
      ensures activePanel == panel && shown
      ensures heading == panel.title
      ensures view == ViewFor(panel.title, panel.content)
      ensures imageShown == (panel.title == ABOUT_TITLE) && centered == (panel.title == ABOUT_TITLE)
      ensures imageSrc == if panel.title == ABOUT_TITLE then PORTRAIT else old(imageSrc)
    {
      activePanel := panel;
      heading := panel.title;
      if panel.title == ABOUT_TITLE {
        imageSrc := PORTRAIT;
        imageShown := true;
        centered := true;
        view := AboutView(panel.content);
      } else {
        imageShown := false;
        centered := false;
        var timelineData := TimelineFor(panel.title);
        var items: seq<Entry> := [];
        for i := 0 to |timelineData|
          invariant items == timelineData[..i]
        {
          items := items + [timelineData[i]];
        }
        view := TimelineView(items);
      }
      shown := true;
    }

    /** closePopup(): hides the popup and clears the active panel; nothing else changes. */
    method Close()
      modifies this
      ensures !shown && activePanel == null
      ensures heading == old(heading) && view == old(view) && imageShown == old(imageShown)
      ensures imageSrc == old(imageSrc) && centered == old(centered)
    {
      shown := false;
      activePanel := null;
    }

    /** The card's own click handler: it closes only for a click whose target is the card itself, not one of its children. */
    method CardClick(target: object)
      modifies this
      ensures target == this ==> !shown && activePanel == null
      ensures target == this ==> heading == old(heading) && view == old(view)
      ensures target == this ==> imageShown == old(imageShown) && imageSrc == old(imageSrc) && centered == old(centered)
      ensures target != this ==> unchanged(this)
    {
      if target == this {
        Close();
      }
    }
  }
}

=== FILE: skills_filter.dfy ===
/**
 * The skills category filter of script.js. Clicking a `.category-btn` takes the class
 * "active" off every category button and puts it on the clicked one, then walks the
 * `.skill-card` elements and shows a card (display "block") when the button's
 * data-category is "all" or equals the card's data-category, and hides it (display
 * "none") otherwise. A data-category attribute may be absent (`dataset.category` is
 * undefined); the model writes that as None.
 */
module SkillsFilter {
  import opened Wrappers

  /** The category that shows every card. */
  const ALL: string := "all"

  /** The rule a card's visibility follows after a click on a button of this category. */
  function Visible(category: Option<string>, cardCategory: Option<string>): (shown: bool)
    ensures category == Some(ALL) ==> shown
    ensures category != Some(ALL) ==> (shown <==> cardCategory == category)
    ensures cardCategory.None? && category != Some(ALL) ==> (shown <==> category.None?)
  {
    category == Some(ALL) || cardCategory == category
  }

  /** The "active" flags of n buttons after a click on button `clicked`. */
  function Highlighted(n: nat, clicked: nat): (r: seq<bool>)
    ensures |r| == n
  {
    seq(n, j => j == clicked)
  }

  /** The display of each card (true for "block") after a click on a button of this category. */
  function Filtered(category: Option<string>, cards: seq<Option<string>>): (r: seq<bool>)
    ensures |r| == |cards|
  {
    seq(|cards|, j requires 0 <= j < |cards| => Visible(category, cards[j]))
  }

  function CountTrue(s: seq<bool>): nat {
    if s == [] then 0 else CountTrue(s[..|s| - 1]) + (if s[|s| - 1] then 1 else 0)
  }

  /** After a click exactly one button, the clicked one, is active. */
  lemma {:induction false} ExactlyOneActive(n: nat, clicked: nat)
    ensures CountTrue(Highlighted(n, clicked)) == if clicked < n then 1 else 0
    ensures clicked < n ==> Highlighted(n, clicked)[clicked]
  {
    if n > 0 {
      assert Highlighted(n, clicked)[..n - 1] == Highlighted(n - 1, clicked);
      ExactlyOneActive(n - 1, clicked);
    }
  }

  /** "all" shows every card; any other category shows exactly the cards of that category, as many as there are. */
  lemma {:induction false} ShownCount(category: Option<string>, cards: seq<Option<string>>)
    ensures category == Some(ALL) ==> forall j :: 0 <= j < |cards| ==> Filtered(category, cards)[j]
    ensures CountTrue(Filtered(category, cards))
            == if category == Some(ALL) then |cards| else multiset(cards)[category]
  {
    if cards != [] {
      var rest := cards[..|cards| - 1];
      assert Filtered(category, cards)[..|cards| - 1] == Filtered(category, rest);
      assert cards == rest + [cards[|cards| - 1]];
      ShownCount(category, rest);
    }
  }

  /** Takes "active" off every button, then puts it on the clicked one. */
  method ActivateOnly(active: array<bool>, clicked: nat)
    requires clicked < active.Length
    modifies active
    ensures active[..] == Highlighted(active.Length, clicked)
  {
    for j := 0 to active.Length
      invariant forall k :: 0 <= k < j ==> !active[k]
    {
      active[j] := false;
    }
    active[clicked] := true;
  }

  /** Sets every card's display from the rule Visible. */
  method ShowMatching(category: Option<string>, cardCategory: seq<Option<string>>, shown: array<bool>)
    requires |cardCategory| == shown.Length
    modifies shown
    ensures shown[..] == Filtered(category, cardCategory)
  {
    for j := 0 to shown.Length
      invariant forall k :: 0 <= k < j ==> shown[k] == Visible(category, cardCategory[k])
    {
      if category == Some(ALL) || cardCategory[j] == category {
        shown[j] := true;
      } else {
        shown[j] := false;
      }
    }
  }

  /** The click handler of category button `clicked`. */
  method CategoryClick(active: array<bool>, buttonCategory: seq<Option<string>>, clicked: nat,
                       shown: array<bool>, cardCategory: seq<Option<string>>)
    requires clicked < active.Length && |buttonCategory| == active.Length
    requires |cardCategory| == shown.Length && active != shown
    modifies active, shown
    ensures active[..] == Highlighted(active.Length, clicked)
    ensures shown[..] == Filtered(buttonCategory[clicked], cardCategory)
  {
    ActivateOnly(active, clicked);
    ShowMatching(buttonCategory[clicked], cardCategory, shown);
  }
}

=== FILE: typing.dfy ===
/**
 * The typing animation `typeEffect` of script.js. Three module-level variables
 * (`roleIndex`, `charIndex`, `isDeleting`) walk over a fixed list of role words: each
 * call writes one more or one fewer character of the current word into the
 * `.typing-text` element and schedules the next call. The model returns the delay it
 * would hand to setTimeout instead of scheduling anything.
 */
module Typing {

  const ROLES: seq<string> := ["Developer", "Programmer", "Designer", "Innovator", "Thinker"]

  /** Pause after a word is fully typed. */
  const HOLD_DELAY: nat := 1500
  /** Pause between two deleted characters. */
  const DELETE_DELAY: nat := 70
  /** Pause between two typed characters, and after the last character is deleted. */
  const TYPE_DELAY: nat := 100

  /** The three variables typeEffect reads and writes. */
  datatype Cursor = Cursor(roleIndex: nat, charIndex: int, isDeleting: bool)

  /** One call of typeEffect: the variables afterwards, the text written and the delay scheduled. */
  datatype Tick = Tick(next: Cursor, text: string, delay: nat)

  /** s.substring(0, end): an end outside [0, |s|] is clamped into it. */
  function Substring(s: string, end: int): (r: string)
    ensures |r| == if end < 0 then 0 else if end > |s| then |s| else end
    ensures r <= s
  {
    if end < 0 then [] else if end > |s| then s else s[..end]
  }

  /** One call of typeEffect over the role list `roles`. */
  function Step(roles: seq<string>, c: Cursor): (t: Tick)
    requires c.roleIndex < |roles|
    ensures t.next.roleIndex < |roles|
  {
    var role := roles[c.roleIndex];
    var text := if c.isDeleting then Substring(role, c.charIndex - 1) else Substring(role, c.charIndex + 1);
    var charIndex := if c.isDeleting then c.charIndex - 1 else c.charIndex + 1;
    if !c.isDeleting && charIndex == |role| then
      Tick(Cursor(c.roleIndex, charIndex, true), text, HOLD_DELAY)
    else if c.isDeleting && charIndex == 0 then
      Tick(Cursor((c.roleIndex + 1) % |roles|, charIndex, false), text, TYPE_DELAY)
    else
      Tick(Cursor(c.roleIndex, charIndex, c.isDeleting), text, if c.isDeleting then DELETE_DELAY else TYPE_DELAY)
  }

  predicate AllNonEmpty(roles: seq<string>) {
    forall i :: 0 <= i < |roles| ==> |roles[i]| > 0
  }

  /**
   * The states typeEffect can reach: the role index is in range, the character index
   * lies within the current word, typing never starts past its last character and
   * deleting never starts at its first.
   */
  predicate Inv(roles: seq<string>, c: Cursor) {
    && c.roleIndex < |roles|
    && 0 <= c.charIndex <= |roles[c.roleIndex]|
    && (c.isDeleting ==> c.charIndex > 0)
    && (!c.isDeleting ==> c.charIndex < |roles[c.roleIndex]|)
  }

  lemma RolesNonEmpty()
    ensures |ROLES| == 5 && AllNonEmpty(ROLES)
  {
  }

  /** The start state `roleIndex = 0, charIndex = 0, isDeleting = false` is reachable when the words are non-empty. */
  lemma InitialInv(roles: seq<string>)
    requires |roles| > 0 && AllNonEmpty(roles)
    ensures Inv(roles, Cursor(0, 0, false))
  {
  }

  /**
   * Each call keeps the invariant, and the text it writes is the prefix of the current
   * word of length charIndex (at a change of word, the empty prefix).
   */
  lemma StepKeepsInv(roles: seq<string>, c: Cursor)
    requires AllNonEmpty(roles) && Inv(roles, c)
    ensures Inv(roles, Step(roles, c).next)
    ensures var n := Step(roles, c).next; Step(roles, c).text == roles[n.roleIndex][..n.charIndex]
  {
  }

  /** The direction and delay rules of one call. */
  lemma StepRules(roles: seq<string>, c: Cursor)
    requires Inv(roles, c)
    ensures var t := Step(roles, c);
      && t.next.charIndex == (if c.isDeleting then c.charIndex - 1 else c.charIndex + 1)
      && (t.delay == HOLD_DELAY <==> !c.isDeleting && t.next.charIndex == |roles[c.roleIndex]|)
      && (t.delay == HOLD_DELAY ==> t.next.isDeleting)
      && (t.delay == DELETE_DELAY <==> c.isDeleting && t.next.isDeleting)
      && (t.delay == TYPE_DELAY <==> !t.next.isDeleting)
      && (t.next.isDeleting != c.isDeleting <==>
            t.next.charIndex == (if c.isDeleting then 0 else |roles[c.roleIndex]|))
      && t.next.roleIndex == (if c.isDeleting && t.next.charIndex == 0 then (c.roleIndex + 1) % |roles| else c.roleIndex)
  {
  }

  /** Inv is an invariant only because every word is non-empty: an empty word is typed past its end. */
  lemma EmptyRoleOverruns()
    ensures !Inv([""], Step([""], Cursor(0, 0, false)).next)
    ensures Step([""], Cursor(0, 0, false)).next == Cursor(0, 1, false)
  {
  }

  /** n consecutive calls of typeEffect. */
  function Run(roles: seq<string>, c: Cursor, n: nat): (r: Cursor)
    requires c.roleIndex < |roles|
    ensures r.roleIndex < |roles|
    decreases n
  {
    if n == 0 then c else Run(roles, Step(roles, c).next, n - 1)
  }

  lemma {:induction false} RunAppend(roles: seq<string>, c: Cursor, a: nat, b: nat)
    requires c.roleIndex < |roles|
    ensures Run(roles, c, a + b) == Run(roles, Run(roles, c, a), b)
    decreases a
  {
    if a > 0 {
      RunAppend(roles, Step(roles, c).next, a - 1, b);
    }
  }

  /** Typing from any reachable typing state reaches the end of the word and turns to deleting. */
  lemma {:induction false} TypeOut(roles: seq<string>, c: Cursor)
    requires Inv(roles, c) && !c.isDeleting
    ensures Run(roles, c, |roles[c.roleIndex]| - c.charIndex) == Cursor(c.roleIndex, |roles[c.roleIndex]|, true)
    decreases |roles[c.roleIndex]| - c.charIndex
  {
    var next := Step(roles, c).next;
    if c.charIndex + 1 < |roles[c.roleIndex]| {
      TypeOut(roles, next);
    }
  }

  /** Deleting from any reachable deleting state empties the word and moves to the next one. */
  lemma {:induction false} DeleteOut(roles: seq<string>, c: Cursor)
    requires Inv(roles, c) && c.isDeleting
    ensures Run(roles, c, c.charIndex) == Cursor((c.roleIndex + 1) % |roles|, 0, false)
    decreases c.charIndex
  {
    var next := Step(roles, c).next;
    if c.charIndex > 1 {
      DeleteOut(roles, next);
    }
  }

  /** A word is typed and deleted in exactly twice its length calls, ending at the start of the next word. */
  lemma RoleCycle(roles: seq<string>, r: nat)
    requires AllNonEmpty(roles) && r < |roles|
    ensures Run(roles, Cursor(r, 0, false), 2 * |roles[r]|) == Cursor((r + 1) % |roles|, 0, false)
  {
    var start := Cursor(r, 0, false);
    var len := |roles[r]|;
    TypeOut(roles, start);
    DeleteOut(roles, Cursor(r, len, true));
    RunAppend(roles, start, len, len);
  }

  /** The number of letters in all of `roles`. */
  function Letters(roles: seq<string>): nat {
    if roles == [] then 0 else Letters(roles[..|roles| - 1]) + |roles[|roles| - 1]|
  }

  lemma LettersStep(roles: seq<string>, k: nat)
    requires 0 < k <= |roles|
    ensures Letters(roles[..k]) == Letters(roles[..k - 1]) + |roles[k - 1]|
  {
    assert roles[..k][..k - 1] == roles[..k - 1];
  }

  lemma RunThrough(roles: seq<string>, c: Cursor, n: nat, a: nat, b: nat, mid: Cursor, end: Cursor)
    requires c.roleIndex < |roles| && mid.roleIndex < |roles| && n == a + b
    requires Run(roles, c, a) == mid && Run(roles, mid, b) == end
    ensures Run(roles, c, n) == end
  {
    RunAppend(roles, c, a, b);
  }

  /** The word after word r, counting from 0 again after the last. */
  lemma NextWord(r: nat, n: nat)
    requires r < n
    ensures (r + 1) % n == if r + 1 == n then 0 else r + 1
  {
  }

  /** Typing and deleting the first k words takes twice their letters in calls. */
  lemma {:induction false} RunWords(roles: seq<string>, k: nat)
    requires AllNonEmpty(roles) && 0 < |roles| && k <= |roles|
    ensures Run(roles, Cursor(0, 0, false), 2 * Letters(roles[..k]))
            == Cursor(if k == |roles| then 0 else k, 0, false)
  {
    if k > 0 {
      var mid := Cursor(k - 1, 0, false);
      var end := Cursor(if k == |roles| then 0 else k, 0, false);
      assert Run(roles, Cursor(0, 0, false), 2 * Letters(roles[..k - 1])) == mid by {
        RunWords(roles, k - 1);
      }
      assert Run(roles, mid, 2 * |roles[k - 1]|) == end by {
        RoleCycle(roles, k - 1);
        NextWord(k - 1, |roles|);
      }
      LettersStep(roles, k);
      RunThrough(roles, Cursor(0, 0, false), 2 * Letters(roles[..k]),
                 2 * Letters(roles[..k - 1]), 2 * |roles[k - 1]|, mid, end);
    }
  }

  /**
   * After twice as many calls as the words have letters the animation is back at the
   * start of the first word: every word is typed and deleted once, in order.
   */
  lemma FullRotation(roles: seq<string>)
    requires AllNonEmpty(roles) && 0 < |roles|
    ensures Run(roles, Cursor(0, 0, false), 2 * Letters(roles)) == Cursor(0, 0, false)
  {
    RunWords(roles, |roles|);
    assert roles[..|roles|] == roles;
  }

  /** The page's five words have 43 letters, so its animation repeats every 86 calls. */
  lemma RolesLetters()
    ensures Letters(ROLES) == 43
  {
    var w := ROLES;
    assert Letters(w[..1]) == 9 by { assert w[..1][..0] == []; }
    assert Letters(w[..2]) == 19 by { assert w[..2][..1] == w[..1]; }
    assert Letters(w[..3]) == 27 by { assert w[..3][..2] == w[..2]; }
    assert Letters(w[..4]) == 36 by { assert w[..4][..3] == w[..3]; }
    assert w[..5] == w;
  }

  /** The page's animation is back at "Developer", nothing typed, after every 86 calls. */
  lemma RotationEvery86()
    ensures Run(ROLES, Cursor(0, 0, false), 86) == Cursor(0, 0, false)
  {
    RolesNonEmpty();
    RolesLetters();
    FullRotation(ROLES);
  }

  /** The `.typing-text` element and the three variables typeEffect updates in place. */
  class Typewriter {
    var roleIndex: nat
    var charIndex: int
    var isDeleting: bool
    /** The element's textContent. */
    var text: string

    function State(): Cursor
      reads this
    {
      Cursor(roleIndex, charIndex, isDeleting)
    }

    ghost predicate Valid()
      reads this
    {
      Inv(ROLES, State())
    }

    /** The variables as the script declares them; the element starts with whatever the page holds. */
    constructor (initialText: string)
      ensures Valid() && State() == Cursor(0, 0, false) && text == initialText
    {
      roleIndex, charIndex, isDeleting := 0, 0, false;
      text := initialText;
    }

    /** typeEffect(): returns the delay it passes to setTimeout. */
    method TypeEffect() returns (delay: nat)
      requires Valid()
      modifies this
      ensures Valid()
      ensures var t := Step(ROLES, old(State())); State() == t.next && text == t.text && delay == t.delay
      ensures text == ROLES[roleIndex][..charIndex]
    {
      RolesNonEmpty();
      StepKeepsInv(ROLES, State());
      var currentRole := ROLES[roleIndex];
      if !isDeleting {
        text := Substring(currentRole, charIndex + 1);
        charIndex := charIndex + 1;
      } else {
        text := Substring(currentRole, charIndex - 1);
        charIndex := charIndex - 1;
      }
      if !isDeleting && charIndex == |currentRole| {
        isDeleting := true;
        delay := HOLD_DELAY;
        return;
      } else if isDeleting && charIndex == 0 {
        isDeleting := false;
        roleIndex := (roleIndex + 1) % |ROLES|;
      }
      delay := if isDeleting then DELETE_DELAY else TYPE_DELAY;
    }
  }
}

=== FILE: wrappers.dfy ===
/** The usual Some/None wrapper, for values the page may lack (an absent data attribute). */
module Wrappers {
  datatype Option<+T> = None | Some(value: T)
}
